=== FILE: README.md ===
# GoCardless Bank Account Data client: token and pagination core

A Dafny model of the token and pagination logic of the open-banking client in
`app/services/gc_bank_data.py` (class `GoCardlessBankDataClient`, with the
request hook `GoCardlessBankAuth`).

- `tokens.dfy`, module `Tokens`. The token state holds four fields: access token,
  refresh token, and the absolute expiry of each. The module also defines the
  client configuration (secret pair and renewal buffer, default 60 s), Python
  truthiness of a token, the freshness predicates, the token-endpoint requests,
  and the clock readings.
- `renewal.dfy`, module `Renewal`. This covers `get_access_token` (`Issue`),
  `refresh_access_token` (`Refresh`), `ensure_valid_token` (`Ensure`) and
  `GoCardlessBankAuth.__call__` (`Authorize`). Each one returns the new state,
  the token requests it sent, in order, and the failure it raised.
- `pagination.dfy`, module `Pagination`. This covers `get_all_account_transactions`.
  It is a loop over an oracle of page replies, one reply per request, where
  request `k` goes out at offset `k * batch_size`.
- `persistence.dfy`, module `Persistence`. This covers `save_tokens_to_dict` and
  `load_tokens_from_dict`. The stored dictionary is modelled key by key.
- `status.dfy`, module `Status`. This covers `get_token_status`.

The model replaces the environment with parameters:

- The clock is passed in. Each `time.time()` reading on the renewal path is a
  separate field of `Clock`:
  - `atCheck` is the reading in `ensure_valid_token`.
  - `atRefresh` is the reading taken before the refresh request.
  - `atIssue` is the reading taken after the issue response.
  - `load_tokens_from_dict` takes one more reading, `atLoad`.
- No ordering between readings is assumed, because the source reads the wall
  clock. Lemmas that need a single instant use `Frozen(now)`.
- Provider answers are abstract values. The issue endpoint answers with
  `IssueReply`, the refresh endpoint with `RefreshReply`, and each page request
  with `PageReply`.
- A failure is either an HTTP status raised by `raise_for_status` (a code from
  400 to 599) or a transport error. Only a 401 on refresh falls back to a full issue.

Three behaviours of the code are worth stating plainly:

- An ordinary API call that gets a 401 is not retried. The hook only renews
  and sets the header.
- There is no lock around renewal, so concurrent renewals are not serialised.
- A successful `ensure_valid_token` does not guarantee that the token stays
  usable for the buffer time. The new expiry is the clock reading plus whatever
  duration the provider sent, which defaults to 0 when the key is absent.

## Model

| member | source | states |
|---|---|---|
| Renewal.Issue | app/services/gc_bank_data.py:60-90 | Sends exactly one issue request carrying the secret pair. It raises if and only if the provider rejects the request, and then the state is unchanged. On success, both tokens come from the reply and each expiry is the reading after the response plus its duration, or plus 0 when the duration is absent. |
| Renewal.Refresh | app/services/gc_bank_data.py:92-127 | Without a truthy refresh token that is unexpired at the pre-request reading, the whole outcome is that of an issue: the single issue request and its state and raise. With a usable refresh token, the first request is a refresh carrying that token. A successful refresh sends only that request, a 401 answer is followed by exactly one issue request, and any other failure sends nothing more. An issue is sent if and only if the refresh token is unusable or the refresh answered 401. The issue is then the last request, and the resulting state and raise are exactly those of the issue. A raise leaves the state unchanged. A refresh failure other than 401 raises that failure after the single refresh request. A successful refresh-only renewal replaces only the access token and its expiry, which is set from the pre-request reading. |
| Renewal.Ensure | app/services/gc_bank_data.py:46-58 | Sends no request if and only if the access token is truthy and the check reading is before its expiry minus the buffer, and in that case the state is unchanged. The first request is a refresh if and only if renewal is due and the refresh token is usable at both readings. At most two requests are sent. A raise leaves the state unchanged. Success always leaves an access token in place. |
| Renewal.Authorize | app/services/gc_bank_data.py:20-25 | Runs the renewal once. A header is set if and only if the renewal did not raise, and the header is "Bearer " followed by the access token the client then holds. |
| Renewal.NoRenewalWhileFresh | app/services/gc_bank_data.py:46-52 | While the access token is fresh, the renewal sends nothing and changes nothing, whatever the provider would answer. |
| Renewal.RenewalWhenStale | app/services/gc_bank_data.py:50-58 | Once renewal is due, at least one token request is sent. |
| Renewal.RefreshPreferredWhenUsable | app/services/gc_bank_data.py:54-55 | With a usable refresh token and a successful refresh, exactly one refresh request is sent. Only the access token and its expiry change. |
| Renewal.IssueWhenRefreshUnusable | app/services/gc_bank_data.py:56-58 | Without a usable refresh token at the check, exactly one issue request is sent and no refresh is attempted. |
| Renewal.RefreshExpiredInFlightIssues | app/services/gc_bank_data.py:98-101 | If the refresh token expires between the check and the refresh reading, the renewal is exactly a full issue: same state, same raise, and only the issue request is sent. |
| Renewal.UnauthorizedRefreshFallsBackToIssue | app/services/gc_bank_data.py:116-118 | A 401 on refresh is followed by a full issue, and the renewal's outcome is the issue's. If the issue is granted, all four fields come from the issue reply, so the rejected refresh token is dropped. If the issue is rejected, the state is unchanged and the issue's failure is raised. |
| Renewal.OtherRefreshFailureRaises | app/services/gc_bank_data.py:116-120 | Any refresh failure other than 401 raises after the single refresh request, and the state is unchanged. |
| Renewal.RenewalIsAtomic | app/services/gc_bank_data.py:74-125 | A due renewal ends in one of three ways. It raises and leaves the state unchanged. Or it refreshes, and exactly the access token and its expiry are replaced. Or it issues, and all four fields come from the issue reply. |
| Renewal.RejectedCredentialsLeaveClientEmpty | app/services/gc_bank_data.py:74-78 | When an empty client's credentials are rejected, one issue request is sent, the call raises, and the client stays empty. |
| Renewal.IssueForgetsPriorState | app/services/gc_bank_data.py:81-88 | A successful issue yields the same state whatever state it replaced. |
| Renewal.HeaderCarriesHeldToken | app/services/gc_bank_data.py:20-25 | When the token is fresh, the hook sends nothing and sets "Bearer " followed by the held access token. |
| Renewal.RenewalMayLeaveTokenDue | app/services/gc_bank_data.py:85-88 | A renewal can succeed and still leave a token that is due for renewal. When the provider omits both durations, both expiries equal the issue reading. |
| Pagination.LastRequest | app/services/gc_bank_data.py:259-264 | The last request sent is the first reply, from the starting index on, that fails or holds fewer than `batch_size` entries. Every earlier reply continues the loop. |
| Pagination.GetAllAccountTransactions | app/services/gc_bank_data.py:228-266 | Sends exactly one request past the last reply that continues the loop, at offsets 0, b, 2b, and so on. Every request before the last returned a full page. The call aborts with the failure if and only if the last reply failed. Otherwise it returns every page's booked-then-pending entries, concatenated in page order. |
| Pagination.CollectedAppend | app/services/gc_bank_data.py:256-257 | Collecting the entries of two runs of replies in sequence gives the concatenation of their collected entries. |
| Pagination.CollectedPlacesPage | app/services/gc_bank_data.py:256-257 | The j-th entry of page i sits right after all entries of earlier pages, so page order and the order within a page are preserved. |
| Pagination.BookedBeforePending | app/services/gc_bank_data.py:253-257 | Within each page, every booked entry comes before every pending entry, and each keeps the provider's order. |
| Pagination.CollectedSize | app/services/gc_bank_data.py:256-257 | The result holds exactly as many entries as the served pages. |
| Pagination.FullPageIsFollowed | app/services/gc_bank_data.py:259-264 | A page with exactly `batch_size` entries is never the last request. |
| Pagination.RequestCountIsFirstStop | app/services/gc_bank_data.py:246-264 | If reply k is the first that fails or is short, exactly k + 1 requests are sent. |
| Pagination.ThreePagesOfHistory | app/services/gc_bank_data.py:243-266 | With batch size 100 and pages of 100, 100 and 37 entries, three requests are sent and all 237 entries are returned in order. |
| Pagination.FullLastPageCostsOneMoreRequest | app/services/gc_bank_data.py:259-264 | If the history is one full page of 100, a second request is sent and returns an empty page. |
| Persistence.Save | app/services/gc_bank_data.py:293-305 | The saved record is never empty, even for a client with no token, and reading it back with the load's defaults gives the saved state. |
| Persistence.Load | app/services/gc_bank_data.py:307-342 | With nothing to load, it answers false and changes nothing. A fresh stored token is restored as is, with true and no requests. A false answer after a non-empty record leaves the client empty. A true answer after requests leaves an access token in place. |
| Persistence.SaveLoadRoundTrip | app/services/gc_bank_data.py:293-342 | Saving a state with a fresh access token and loading it back restores all four fields exactly, answers true and sends nothing, whatever the prior state. |
| Persistence.LoadNothing | app/services/gc_bank_data.py:317-318 | `None` and the empty dictionary both answer false and leave the client as it was. |
| Persistence.StaleLoadRenews | app/services/gc_bank_data.py:326-340 | A stale loaded token runs a renewal. If the renewal raises, all four fields are reset to None, None, 0, 0 and the answer is false. Otherwise the answer is true with the renewed state. |
| Persistence.StaleLoadContactsProvider | app/services/gc_bank_data.py:326-332 | With a single clock reading, a stale loaded token always leads to at least one token request. |
| Persistence.SavedEmptyStateIssuesOnLoad | app/services/gc_bank_data.py:300-332 | Loading the saved state of a client that never held a token sends exactly one issue request. |
| Persistence.FailedLoadStates | app/services/gc_bank_data.py:317-340 | After a false answer, the client holds either its prior state or the empty state, never anything in between. |
| Status.Remaining | app/services/gc_bank_data.py:276-277 | The remaining seconds are never negative. They are positive if and only if the expiry is still ahead, and then they reach exactly to the expiry. |
| Status.GetTokenStatus | app/services/gc_bank_data.py:268-291 | Both remaining counts are at least 0. Whether or not the token is present, each count is positive if and only if its expiry is still ahead, and then the current time plus the count equals that expiry. Presence means "not None". Each validity flag holds if and only if the token is present and has seconds left, and then the current time plus those seconds equals the reported expiry. |
| Status.FreshTokenReportedValid | app/services/gc_bank_data.py:275-288 | A token that needs no renewal is reported valid with more than the buffer left. |
| Status.AccessValidIffPresentAndUnexpired | app/services/gc_bank_data.py:287-288 | The access flag holds if and only if the access token is not None and the current time is before its expiry. No buffer is applied. |
| Status.RefreshFlagMatchesRenewalChoice | app/services/gc_bank_data.py:289-290 | The refresh flag agrees with the renewal's refresh decision for every refresh token except the empty string. |
| Status.ValidWithinBufferStillRenews | app/services/gc_bank_data.py:50-52 | A token with 30 s left is reported valid, yet it is due for renewal under the 60 s buffer. |
| Status.EmptyTokenReportedValid | app/services/gc_bank_data.py:280-288 | An empty-string access token is reported present and valid, yet the next request issues a new one. |

## Left out

- The HTTP transport is not modelled: `requests`, the `Session`, headers, JSON
  decoding and the debug `print`s. Provider answers are abstract inputs.
- The endpoint wrappers contain no logic and are not modelled:
  `get_institutions`, `create_agreement`, `create_requisition`,
  `get_requisition`, `get_account_details`, `get_account_balances`,
  `get_account_transactions` and `close`. `get_account_transactions_paginated`
  is the page oracle.
- The wall clock is not modelled. Every reading is a parameter.
- Malformed success bodies are not modelled. A 200 body without `"access"` or
  `"refresh"` raises `KeyError`, and for an issue a missing `"refresh"` would
  leave the new access token already assigned. A duration that is present but
  `null` raises `TypeError`. The model assumes both token keys are strings and
  that durations are integers or absent.
- A 2xx or 3xx status other than 200 gets past `raise_for_status`. Such a
  response counts as a success only if its body decodes, and the model folds it
  into the success or failure reply.
- Token renewal inside each page request is not modelled separately. The
  request hook renews the token before every page request, and a failed renewal
  appears as a failed page reply. The token state changes it makes between pages
  are not tracked by `Pagination`.
- Pagination.GetAllAccountTransactions: only terminating provider histories are
  modelled. The method requires that some reply fails or is short. Without one,
  the source loops forever, for example with `batch_size <= 0` and no failure.
- A loaded value of the wrong JSON type is not modelled. The stored dictionary
  holds typed values only.
- The application routes, templates, configuration-file I/O, the global client
  singleton, the JavaScript progress bar and the Flask/pandas visualisation are
  not part of this model.
- Concurrency, single-flight renewal and retry on a 401 from an ordinary API call
  are not modelled. None of them exists in the code.

=== FILE: pagination.dfy ===
/** `get_all_account_transactions`: limit/offset paging over the single-page
    endpoint `get_account_transactions_paginated`, which is modelled as an
    oracle: `replies[k]` is the provider's answer to the k-th page request,
    the one sent at offset `k * batchSize`. */
module Pagination {
  import opened Tokens

  /** One page of the provider's answer; an absent `transactions`, `booked` or
      `pending` key reads as an empty list. */
  datatype Page<E> = Page(booked: seq<E>, pending: seq<E>)

  /** The outcome of one page request: a page, or the exception it raised
      (from the transport, `raise_for_status`, or the token renewal the request
      hook runs first). */
  datatype PageReply<E> = Served(page: Page<E>) | PageFailed(failure: Failure)

  /** The whole call returns every collected entry or raises; there are no
      partial results. */
  datatype FetchResult<E> = Transactions(entries: seq<E>) | Aborted(failure: Failure)

  /** The number of entries a page counts towards the stop test. */
  function Size<E>(p: Page<E>): int {
    |p.booked| + |p.pending|
  }

  /** The entries one page contributes: its booked entries, then its pending
      entries, each in provider order. */
  function Entries<E>(p: Page<E>): seq<E> {
    p.booked + p.pending
  }

  /** No request follows this reply: it raised, or the page was short. */
  predicate Stops<E>(reply: PageReply<E>, batchSize: int) {
    reply.PageFailed? || Size(reply.page) < batchSize
  }

  /** Some request at or after `from` stops the loop. Without such a reply the
      source loops forever. */
  predicate StopsFrom<E>(replies: seq<PageReply<E>>, batchSize: int, from: nat) {
    exists k :: from <= k < |replies| && Stops(replies[k], batchSize)
  }

  /** The index of the last request the loop sends when it starts at `from`:
      the first reply from there on that stops the loop. */
  function LastRequest<E>(replies: seq<PageReply<E>>, batchSize: int, from: nat): (n: nat)
    requires StopsFrom(replies, batchSize, from)
    ensures from <= n < |replies|
    ensures Stops(replies[n], batchSize)
    ensures forall i :: from <= i < n ==> !Stops(replies[i], batchSize)
    decreases |replies| - from
  {
    if Stops(replies[from], batchSize) then from else LastRequest(replies, batchSize, from + 1)
  }

  /** The entries of all served pages, page by page, in reply order. */
  function Collected<E>(replies: seq<PageReply<E>>): seq<E> {
    if replies == [] then []
    else
      var last := replies[|replies| - 1];
      Collected(replies[..|replies| - 1]) + (if last.Served? then Entries(last.page) else [])
  }

  /** The loop of `get_all_account_transactions`: request at offset 0, b, 2b,
      ...; append booked then pending entries; stop after the first page with
      fewer than `batchSize` entries. Returns the offsets requested, in order,
      and the result. */
  method GetAllAccountTransactions<E>(replies: seq<PageReply<E>>, batchSize: int)
    returns (offsets: seq<int>, result: FetchResult<E>)
    requires StopsFrom(replies, batchSize, 0)
    ensures |offsets| == LastRequest(replies, batchSize, 0) + 1
    ensures forall i :: 0 <= i < |offsets| ==> offsets[i] == i * batchSize
    ensures forall i :: 0 <= i < |offsets| - 1 ==> replies[i].Served? && Size(replies[i].page) >= batchSize
    ensures result.Aborted? <==> replies[|offsets| - 1].PageFailed?
    ensures result.Aborted? ==> result.failure == replies[|offsets| - 1].failure
    ensures result.Transactions? ==> result.entries == Collected(replies[..|offsets|])
  {
    ghost var n := LastRequest(replies, batchSize, 0);
    var all: seq<E> := [];
    var offset := 0;
    var k := 0;
    offsets := [];
    while true
      invariant 0 <= k <= n
      invariant offset == k * batchSize
      invariant |offsets| == k
      invariant forall i :: 0 <= i < k ==> offsets[i] == i * batchSize
      invariant all == Collected(replies[..k])
      decreases n - k
    {
      offsets := offsets + [offset];
      var reply := replies[k];
      if reply.PageFailed? {
        result := Aborted(reply.failure);
        return;
      }
      all := all + reply.page.booked + reply.page.pending;
      CollectedStep(replies, k);
      if Size(reply.page) < batchSize {
        result := Transactions(all);
        return;
      }
      NextOffset(k, batchSize);
      offset := offset + batchSize;
      k := k + 1;
    }
  }

  /** One more served reply appends its entries. */
  lemma CollectedStep<E>(replies: seq<PageReply<E>>, k: nat)
    requires k < |replies| && replies[k].Served?
    ensures Collected(replies[..k + 1]) == Collected(replies[..k]) + replies[k].page.booked + replies[k].page.pending
  {
    assert replies[..k + 1][..k] == replies[..k];
  }

  /** The multiplication step the loop's `offset == k * batchSize` invariant
      needs; stating it keeps the loop's proof stable across solver seeds. */
  lemma NextOffset(k: int, batchSize: int)
    ensures (k + 1) * batchSize == k * batchSize + batchSize
  {
  }

  // ---------------------------------------------------------------------
  // Properties of the collected result

  /** Collecting is a homomorphism from concatenation of reply lists. */
  lemma {:induction false} CollectedAppend<E>(a: seq<PageReply<E>>, b: seq<PageReply<E>>)
    ensures Collected(a + b) == Collected(a) + Collected(b)
    decreases |b|
  {
    if b == [] {
      assert a + b == a;
    } else {
      var b' := b[..|b| - 1];
      assert (a + b)[..|a + b| - 1] == a + b';
      CollectedAppend(a, b');
    }
  }

  /** Entries are placed page by page: the j-th entry of the i-th served page
      sits right after everything the earlier pages contributed. */
  lemma CollectedPlacesPage<E>(replies: seq<PageReply<E>>, i: nat, j: nat)
    requires i < |replies| && replies[i].Served?
    requires j < Size(replies[i].page)
    ensures |Collected(replies[..i])| + j < |Collected(replies)|
    ensures Collected(replies)[|Collected(replies[..i])| + j] == Entries(replies[i].page)[j]
  {
    assert replies == replies[..i] + [replies[i]] + replies[i + 1..];
    CollectedAppend(replies[..i] + [replies[i]], replies[i + 1..]);
    CollectedAppend(replies[..i], [replies[i]]);
    assert [replies[i]][..0] == [];
  }

  /** Within a page every booked entry precedes every pending entry. */
  lemma BookedBeforePending<E>(replies: seq<PageReply<E>>, i: nat, j: nat, m: nat)
    requires i < |replies| && replies[i].Served?
    requires j < |replies[i].page.booked| && m < |replies[i].page.pending|
    ensures var base := |Collected(replies[..i])|;
            && base + |replies[i].page.booked| + m < |Collected(replies)|
            && Collected(replies)[base + j] == replies[i].page.booked[j]
            && Collected(replies)[base + |replies[i].page.booked| + m] == replies[i].page.pending[m]
  {
    CollectedPlacesPage(replies, i, j);
    CollectedPlacesPage(replies, i, |replies[i].page.booked| + m);
  }

  /** The number of entries the served pages hold in all. */
  function TotalSize<E>(replies: seq<PageReply<E>>): nat {
    if replies == [] then 0
    else TotalSize(replies[..|replies| - 1]) + (if replies[|replies| - 1].Served? then Size(replies[|replies| - 1].page) else 0)
  }

  /** Nothing is dropped or duplicated: the result holds exactly as many
      entries as the served pages. */
  lemma {:induction false} CollectedSize<E>(replies: seq<PageReply<E>>)
    ensures |Collected(replies)| == TotalSize(replies)
    decreases |replies|
  {
    if replies != [] {
      CollectedSize(replies[..|replies| - 1]);
    }
  }

  /** A page holding exactly `batchSize` entries is never the last request:
      one more request is sent after it. */
  lemma FullPageIsFollowed<E>(replies: seq<PageReply<E>>, batchSize: int, i: nat)
    requires StopsFrom(replies, batchSize, 0)
    requires i < |replies| && replies[i].Served? && Size(replies[i].page) == batchSize
    requires forall k :: 0 <= k < i ==> !Stops(replies[k], batchSize)
    ensures i + 1 <= LastRequest(replies, batchSize, 0)
  {
  }

  /** Requests go out at least until the first short page or failure and never
      beyond it: the loop sends exactly `k + 1` requests when reply `k` is the
      first that stops it. */
  lemma RequestCountIsFirstStop<E>(replies: seq<PageReply<E>>, batchSize: int, k: nat)
    requires k < |replies| && Stops(replies[k], batchSize)
    requires forall i :: 0 <= i < k ==> !Stops(replies[i], batchSize)
    ensures StopsFrom(replies, batchSize, 0)
    ensures LastRequest(replies, batchSize, 0) == k
  {
  }

  // ---------------------------------------------------------------------
  // Two concrete histories with a batch size of 100

  function Numbers(count: nat, start: int): (s: seq<int>)
    ensures |s| == count
  {
    seq(count, i => start + i)
  }

  lemma NumbersSplit(a: nat, b: nat, start: int)
    ensures Numbers(a, start) + Numbers(b, start + a) == Numbers(a + b, start)
  {
  }

  /** Pages of 100, 100 and 37 entries: three requests, 237 entries. */
  lemma ThreePagesOfHistory()
    ensures var replies := [Served(Page(Numbers(100, 0), [])),
                            Served(Page(Numbers(60, 100), Numbers(40, 160))),
                            Served(Page(Numbers(30, 200), Numbers(7, 230)))];
            && StopsFrom(replies, 100, 0)
            && LastRequest(replies, 100, 0) == 2
            && |Collected(replies)| == 237
            && Collected(replies) == Numbers(237, 0)
  {
    var replies := [Served(Page(Numbers(100, 0), [])),
                    Served(Page(Numbers(60, 100), Numbers(40, 160))),
                    Served(Page(Numbers(30, 200), Numbers(7, 230)))];
    RequestCountIsFirstStop(replies, 100, 2);
    assert replies[..2][..1] == replies[..1];
    assert replies[..1][..0] == [];
    NumbersSplit(60, 40, 100);
    NumbersSplit(30, 7, 200);
    NumbersSplit(100, 100, 0);
    NumbersSplit(200, 37, 0);
    assert Collected(replies[..1]) == Numbers(100, 0);
    assert Collected(replies[..2]) == Numbers(200, 0);
    assert replies[..3] == replies;
  }

  /** A single full page that is the whole history: a second request is sent
      and answers with an empty page. */
  lemma FullLastPageCostsOneMoreRequest()
    ensures var replies := [Served(Page(Numbers(100, 0), [])), Served(Page([], []))];
            && StopsFrom(replies, 100, 0)
            && LastRequest(replies, 100, 0) == 1
            && Collected(replies) == Numbers(100, 0)
  {
    var replies := [Served(Page(Numbers(100, 0), [])), Served(Page([], []))];
    RequestCountIsFirstStop(replies, 100, 1);
    assert replies[..1][..0] == [];
  }
}

=== FILE: persistence.dfy ===
/** Token persistence: `save_tokens_to_dict` and `load_tokens_from_dict`. The
    stored dictionary is modelled key by key, so that a missing key and the
    truthiness of the whole dictionary are explicit. */
module Persistence {
  import opened Tokens
  import opened Renewal

  /** One key of the stored dictionary: missing, or present with a value. */
  datatype Stored<T> = Absent | Present(value: T)

  /** The dictionary kept under `"tokens"` in the configuration file. The four
      keys the client reads, and whether the dictionary holds any other key
      (which makes it non-empty without affecting what is loaded). */
  datatype TokenRecord = TokenRecord(
    accessToken: Stored<Option<string>>,
    refreshToken: Stored<Option<string>>,
    tokenExpires: Stored<int>,
    refreshExpires: Stored<int>,
    otherKeys: bool)

  /** `dict.get(key, default)`. */
  function GetOr<T>(field: Stored<T>, default: T): T {
    match field
    case Present(v) => v
    case Absent => default
  }

  /** Python truthiness of the argument to `load_tokens_from_dict`: not
      `None` and not the empty dictionary. */
  predicate NonEmpty(data: Option<TokenRecord>) {
    match data
    case None => false
    case Some(rec) =>
      rec.accessToken.Present? || rec.refreshToken.Present? || rec.tokenExpires.Present?
      || rec.refreshExpires.Present? || rec.otherKeys
  }

  /** The four assignments at the head of `load_tokens_from_dict`. */
  function Restored(rec: TokenRecord): TokenState {
    TokenState(GetOr(rec.accessToken, None), GetOr(rec.refreshToken, None),
               GetOr(rec.tokenExpires, 0), GetOr(rec.refreshExpires, 0))
  }

  /** `save_tokens_to_dict`: writes all four fields, whatever their values, so
      even the record of a client that never held a token is a non-empty
      dictionary, and reading it back gives the saved state. */
  function Save(s: TokenState): (r: TokenRecord)
    ensures NonEmpty(Some(r))
    ensures Restored(r) == s
    ensures !r.otherKeys
  {
    TokenRecord(Present(s.accessToken), Present(s.refreshToken), Present(s.tokenExpires), Present(s.refreshExpires), false)
  }

  /** What `load_tokens_from_dict` did: the client's state afterwards, its
      boolean answer, and the token requests it sent. */
  datatype Loaded = Loaded(state: TokenState, ok: bool, calls: seq<Call>)

  /** `load_tokens_from_dict`: `atLoad` is its own clock reading; `clock` and
      the two replies serve the `ensure_valid_token` it runs when the loaded
      access token is falsy or due for renewal. A renewal that raises is caught
      and the client is reset to the empty state. */
  function Load(cfg: Config, prior: TokenState, data: Option<TokenRecord>, atLoad: int,
                clock: Clock, refreshReply: RefreshReply, issueReply: IssueReply): (r: Loaded)
    ensures !NonEmpty(data) ==> r == Loaded(prior, false, [])
    ensures NonEmpty(data) && AccessFresh(Restored(data.value), atLoad, cfg.refreshBuffer) ==>
              r == Loaded(Restored(data.value), true, [])
    ensures r.ok ==> NonEmpty(data)
    ensures !r.ok && NonEmpty(data) ==> r.state == Empty
    ensures r.ok && r.calls != [] ==> r.state.accessToken.Some?
    ensures |r.calls| <= 2
  {
    if !NonEmpty(data) then
      Loaded(prior, false, [])
    else
      var loaded := Restored(data.value);
      if !Truthy(loaded.accessToken) || atLoad >= loaded.tokenExpires - cfg.refreshBuffer then
        var renewal := Ensure(cfg, loaded, clock, refreshReply, issueReply);
        if renewal.raised.None? then
          Loaded(renewal.state, true, renewal.calls)
        else
          Loaded(Empty, false, renewal.calls)
      else
        Loaded(loaded, true, [])
  }

  // ---------------------------------------------------------------------
  // Properties of the save/load pair

  /** Saving a state whose access token is fresh and loading it back restores
      all four fields exactly, answers true and sends no request, whatever the
      client held before and whatever the provider would have answered. */
  lemma SaveLoadRoundTrip(cfg: Config, s: TokenState, prior: TokenState, atLoad: int,
                          clock: Clock, refreshReply: RefreshReply, issueReply: IssueReply)
    requires AccessFresh(s, atLoad, cfg.refreshBuffer)
    ensures Load(cfg, prior, Some(Save(s)), atLoad, clock, refreshReply, issueReply) == Loaded(s, true, [])
  {
  }

  /** `None` and the empty dictionary answer false and leave the client as it
      was. */
  lemma LoadNothing(cfg: Config, prior: TokenState, atLoad: int,
                    clock: Clock, refreshReply: RefreshReply, issueReply: IssueReply)
    ensures Load(cfg, prior, None, atLoad, clock, refreshReply, issueReply) == Loaded(prior, false, [])
    ensures Load(cfg, prior, Some(TokenRecord(Absent, Absent, Absent, Absent, false)), atLoad, clock, refreshReply, issueReply)
              == Loaded(prior, false, [])
  {
  }

  /** A stale loaded token whose renewal raises resets all four fields to
      `None`, `None`, 0, 0 and answers false; a renewal that succeeds answers
      true with the renewed state. */
  lemma StaleLoadRenews(cfg: Config, prior: TokenState, data: Option<TokenRecord>, atLoad: int,
                        clock: Clock, refreshReply: RefreshReply, issueReply: IssueReply)
    requires NonEmpty(data)
    requires !AccessFresh(Restored(data.value), atLoad, cfg.refreshBuffer)
    ensures var renewal := Ensure(cfg, Restored(data.value), clock, refreshReply, issueReply);
            var r := Load(cfg, prior, data, atLoad, clock, refreshReply, issueReply);
            && r.calls == renewal.calls
            && (renewal.raised.Some? ==> r.state == TokenState(None, None, 0, 0) && !r.ok)
            && (renewal.raised.None? ==> r.state == renewal.state && r.ok)
  {
  }

  /** When both readings agree, a stale loaded token always reaches the
      provider: the renewal inside the load sends at least one request. */
  lemma StaleLoadContactsProvider(cfg: Config, prior: TokenState, data: Option<TokenRecord>, now: int,
                                  refreshReply: RefreshReply, issueReply: IssueReply)
    requires NonEmpty(data)
    requires !AccessFresh(Restored(data.value), now, cfg.refreshBuffer)
    ensures 1 <= |Load(cfg, prior, data, now, Frozen(now), refreshReply, issueReply).calls|
  {
  }

  /** A saved state that never held a token is not "nothing to load": loading
      it sends an issue request. */
  lemma SavedEmptyStateIssuesOnLoad(cfg: Config, prior: TokenState, atLoad: int,
                                    clock: Clock, refreshReply: RefreshReply, issueReply: IssueReply)
    ensures Load(cfg, prior, Some(Save(Empty)), atLoad, clock, refreshReply, issueReply).calls == [IssueRequest(cfg)]
  {
  }

  /** A load never leaves the client half-reset: after a false answer it holds
      either its prior state (nothing to load) or the empty state. */
  lemma FailedLoadStates(cfg: Config, prior: TokenState, data: Option<TokenRecord>, atLoad: int,
                         clock: Clock, refreshReply: RefreshReply, issueReply: IssueReply)
    ensures var r := Load(cfg, prior, data, atLoad, clock, refreshReply, issueReply);
            !r.ok ==> r.state == prior || r.state == Empty
  {
  }
}

=== FILE: renewal.dfy ===
/** Token renewal: `get_access_token` (issue), `refresh_access_token`
    (refresh with fallback to issue), `ensure_valid_token` (the decision
    between doing nothing, refreshing and issuing) and the request hook
    `GoCardlessBankAuth.__call__` that runs it before every API request.

    Each function returns the new token state, the token-endpoint requests it
    sent, in order, and the failure it raised, if any. */
module Renewal {
  import opened Tokens

  /** The provider's answer to `POST /token/new/`: the decoded body of a
      successful response (each duration `None` when its key is absent), or
      the failure raised while sending it or by `raise_for_status`. */
  datatype IssueReply =
    | Granted(access: string, refresh: string, accessExpires: Option<int>, refreshExpires: Option<int>)
    | IssueRejected(failure: Failure)

  /** The provider's answer to `POST /token/refresh/`. */
  datatype RefreshReply =
    | Refreshed(access: string, accessExpires: Option<int>)
    | RefreshRejected(failure: Failure)

  /** What a renewal did: the resulting state, the token requests sent, and
      the exception it raised (`None` when it returned normally). */
  datatype Outcome = Outcome(state: TokenState, calls: seq<Call>, raised: Option<Failure>)

  /** `data.get(key, 0)` for a duration. */
  function OrZero(d: Option<int>): int {
    match d
    case Some(v) => v
    case None => 0
  }

  /** The request sent to the issue endpoint. */
  function IssueRequest(cfg: Config): Call {
    IssueCall(cfg.secretId, cfg.secretKey)
  }

  /** `get_access_token`: one request with the secret pair; on success all four
      fields are replaced, with durations turned into absolute expiries using
      the clock read after the response (`at`); on failure it raises before
      any field is assigned. */
  function Issue(cfg: Config, s: TokenState, reply: IssueReply, at: int): (r: Outcome)
    ensures r.calls == [IssueRequest(cfg)]
    ensures r.raised.Some? <==> reply.IssueRejected?
    ensures r.raised.Some? ==> r.state == s && r.raised.value == reply.failure
    ensures r.raised.None? ==>
              && r.state.accessToken == Some(reply.access)
              && r.state.refreshToken == Some(reply.refresh)
              && r.state.tokenExpires - at == OrZero(reply.accessExpires)
              && r.state.refreshExpires - at == OrZero(reply.refreshExpires)
  {
    match reply
    case IssueRejected(f) => Outcome(s, [IssueRequest(cfg)], Some(f))
    case Granted(access, refresh, accessExpires, refreshExpires) =>
      var replaced := TokenState(Some(access), Some(refresh), at + OrZero(accessExpires), at + OrZero(refreshExpires));
      Outcome(replaced, [IssueRequest(cfg)], None)
  }

  /** `refresh_access_token`: issues instead when there is no refresh token or
      it has expired at `clock.atRefresh`; otherwise spends the refresh token,
      and on a 401 answer issues instead. A successful refresh replaces only the
      access token and its expiry, computed from the clock read before the
      request. Any other failure raises with the state unchanged. */
  function Refresh(cfg: Config, s: TokenState, clock: Clock, refreshReply: RefreshReply, issueReply: IssueReply): (r: Outcome)
    ensures 1 <= |r.calls| <= 2
    ensures r.calls[0].RefreshCall? <==> RefreshUsable(s, clock.atRefresh)
    ensures r.calls[0].RefreshCall? ==> r.calls[0].refresh == s.refreshToken.value
    ensures IssueRequest(cfg) in r.calls <==>
              !RefreshUsable(s, clock.atRefresh) || refreshReply == RefreshRejected(HttpStatus(Unauthorized))
    ensures IssueRequest(cfg) in r.calls ==> r.calls[|r.calls| - 1] == IssueRequest(cfg)
    ensures !RefreshUsable(s, clock.atRefresh) ==> r == Issue(cfg, s, issueReply, clock.atIssue)
    ensures RefreshUsable(s, clock.atRefresh) && refreshReply == RefreshRejected(HttpStatus(Unauthorized)) ==>
              r.calls == [RefreshCall(s.refreshToken.value), IssueRequest(cfg)]
    ensures IssueRequest(cfg) in r.calls ==>
              && r.state == Issue(cfg, s, issueReply, clock.atIssue).state
              && r.raised == Issue(cfg, s, issueReply, clock.atIssue).raised
    ensures r.raised.Some? ==> r.state == s
    ensures RefreshUsable(s, clock.atRefresh) && refreshReply.RefreshRejected?
            && refreshReply.failure != HttpStatus(Unauthorized) ==>
              r == Outcome(s, [RefreshCall(s.refreshToken.value)], Some(refreshReply.failure))
    ensures r.raised.None? && IssueRequest(cfg) !in r.calls ==>
              && refreshReply.Refreshed?
              && RefreshUsable(s, clock.atRefresh)
              && r.calls == [RefreshCall(s.refreshToken.value)]
              && r.state == s.(accessToken := Some(refreshReply.access),
                               tokenExpires := clock.atRefresh + OrZero(refreshReply.accessExpires))
  {
    if !Truthy(s.refreshToken) then
      Issue(cfg, s, issueReply, clock.atIssue)
    else if clock.atRefresh >= s.refreshExpires then
      Issue(cfg, s, issueReply, clock.atIssue)
    else
      var call := RefreshCall(s.refreshToken.value);
      match refreshReply
      case RefreshRejected(f) =>
        if f == HttpStatus(Unauthorized) then
          var issued := Issue(cfg, s, issueReply, clock.atIssue);
          Outcome(issued.state, [call] + issued.calls, issued.raised)
        else
          Outcome(s, [call], Some(f))
      case Refreshed(access, accessExpires) =>
        var refreshed := s.(accessToken := Some(access), tokenExpires := clock.atRefresh + OrZero(accessExpires));
        Outcome(refreshed, [call], None)
  }

  /** `ensure_valid_token`: nothing happens while the access token is truthy
      and `clock.atCheck` is before its expiry less the buffer; otherwise it
      refreshes when the refresh token is truthy and unexpired at
      `clock.atCheck`, and issues a new pair when it is not. */
  function Ensure(cfg: Config, s: TokenState, clock: Clock, refreshReply: RefreshReply, issueReply: IssueReply): (r: Outcome)
    ensures r.calls == [] <==> AccessFresh(s, clock.atCheck, cfg.refreshBuffer)
    ensures r.calls == [] ==> r.state == s && r.raised.None?
    ensures |r.calls| <= 2
    ensures r.calls != [] && r.calls[0].RefreshCall? <==>
              && !AccessFresh(s, clock.atCheck, cfg.refreshBuffer)
              && RefreshUsable(s, clock.atCheck)
              && RefreshUsable(s, clock.atRefresh)
    ensures r.raised.Some? ==> r.state == s
    ensures r.raised.None? ==> r.state.accessToken.Some?
  {
    if !Truthy(s.accessToken) || clock.atCheck >= s.tokenExpires - cfg.refreshBuffer then
      if Truthy(s.refreshToken) && clock.atCheck < s.refreshExpires then
        Refresh(cfg, s, clock, refreshReply, issueReply)
      else
        Issue(cfg, s, issueReply, clock.atIssue)
    else
      Outcome(s, [], None)
  }

  /** Python's `str()` of a token inside the header's f-string. */
  function Str(token: Option<string>): string {
    match token
    case Some(t) => t
    case None => "None"
  }

  /** What the request hook produced: the renewal it ran and the
      `Authorization` header it set (`None` when the renewal raised and the
      request was never sent). */
  datatype Authorized = Authorized(renewal: Outcome, header: Option<string>)

  /** `GoCardlessBankAuth.__call__`: runs `ensure_valid_token`, then sets the
      bearer header from whatever access token the client then holds. There is
      no retry when the API call itself answers 401. */
  function Authorize(cfg: Config, s: TokenState, clock: Clock, refreshReply: RefreshReply, issueReply: IssueReply): (r: Authorized)
    ensures r.renewal == Ensure(cfg, s, clock, refreshReply, issueReply)
    ensures r.header.Some? <==> r.renewal.raised.None?
    ensures r.header.Some? ==>
              r.renewal.state.accessToken.Some? && r.header.value == "Bearer " + r.renewal.state.accessToken.value
  {
    var renewal := Ensure(cfg, s, clock, refreshReply, issueReply);
    if renewal.raised.Some? then
      Authorized(renewal, None)
    else
      Authorized(renewal, Some("Bearer " + Str(renewal.state.accessToken)))
  }

  // ---------------------------------------------------------------------
  // Properties of the renewal state machine

  /** While the access token is fresh no token request is sent and the state is
      left as it is, whatever the provider would have answered. */
  lemma NoRenewalWhileFresh(cfg: Config, s: TokenState, clock: Clock, refreshReply: RefreshReply, issueReply: IssueReply)
    requires AccessFresh(s, clock.atCheck, cfg.refreshBuffer)
    ensures Ensure(cfg, s, clock, refreshReply, issueReply) == Outcome(s, [], None)
  {
  }

  /** Once renewal is due, at least one token request goes out. */
  lemma RenewalWhenStale(cfg: Config, s: TokenState, clock: Clock, refreshReply: RefreshReply, issueReply: IssueReply)
    requires !AccessFresh(s, clock.atCheck, cfg.refreshBuffer)
    ensures 1 <= |Ensure(cfg, s, clock, refreshReply, issueReply).calls|
  {
  }

  /** A usable refresh token is spent instead of issuing, and a successful
      refresh sends exactly that one request and keeps the refresh token and
      its expiry. */
  lemma RefreshPreferredWhenUsable(cfg: Config, s: TokenState, clock: Clock, refreshReply: RefreshReply, issueReply: IssueReply)
    requires !AccessFresh(s, clock.atCheck, cfg.refreshBuffer)
    requires RefreshUsable(s, clock.atCheck) && RefreshUsable(s, clock.atRefresh)
    requires refreshReply.Refreshed?
    ensures var r := Ensure(cfg, s, clock, refreshReply, issueReply);
            && r.calls == [RefreshCall(s.refreshToken.value)]
            && r.raised.None?
            && r.state == s.(accessToken := Some(refreshReply.access),
                             tokenExpires := clock.atRefresh + OrZero(refreshReply.accessExpires))
  {
  }

  /** Without a usable refresh token at the check, exactly one issue request is
      sent and no refresh is attempted. */
  lemma IssueWhenRefreshUnusable(cfg: Config, s: TokenState, clock: Clock, refreshReply: RefreshReply, issueReply: IssueReply)
    requires !AccessFresh(s, clock.atCheck, cfg.refreshBuffer)
    requires !RefreshUsable(s, clock.atCheck)
    ensures Ensure(cfg, s, clock, refreshReply, issueReply) == Issue(cfg, s, issueReply, clock.atIssue)
    ensures Ensure(cfg, s, clock, refreshReply, issueReply).calls == [IssueRequest(cfg)]
  {
  }

  /** A refresh token that expires between the check and the refresh request
      leads to a full issue: the renewal's state, requests and raise are
      exactly the issue's. */
  lemma RefreshExpiredInFlightIssues(cfg: Config, s: TokenState, clock: Clock, refreshReply: RefreshReply, issueReply: IssueReply)
    requires !AccessFresh(s, clock.atCheck, cfg.refreshBuffer)
    requires RefreshUsable(s, clock.atCheck) && !RefreshUsable(s, clock.atRefresh)
    ensures Ensure(cfg, s, clock, refreshReply, issueReply) == Issue(cfg, s, issueReply, clock.atIssue)
    ensures Ensure(cfg, s, clock, refreshReply, issueReply).calls == [IssueRequest(cfg)]
  {
  }

  /** A 401 on refresh is followed by a full issue whose outcome becomes the
      renewal's: its state, whether granted (the new pair and both expiries
      replace the old ones, so the rejected refresh token is not kept) or
      rejected (the state is unchanged and the issue's failure is raised). */
  lemma UnauthorizedRefreshFallsBackToIssue(cfg: Config, s: TokenState, clock: Clock, issueReply: IssueReply)
    requires !AccessFresh(s, clock.atCheck, cfg.refreshBuffer)
    requires RefreshUsable(s, clock.atCheck) && RefreshUsable(s, clock.atRefresh)
    ensures var r := Ensure(cfg, s, clock, RefreshRejected(HttpStatus(Unauthorized)), issueReply);
            var i := Issue(cfg, s, issueReply, clock.atIssue);
            && r == Outcome(i.state, [RefreshCall(s.refreshToken.value)] + i.calls, i.raised)
            && r.calls == [RefreshCall(s.refreshToken.value), IssueRequest(cfg)]
            && (issueReply.Granted? ==>
                  r.raised.None? &&
                  r.state == TokenState(Some(issueReply.access), Some(issueReply.refresh),
                                        clock.atIssue + OrZero(issueReply.accessExpires),
                                        clock.atIssue + OrZero(issueReply.refreshExpires)))
            && (issueReply.IssueRejected? ==> r.state == s && r.raised == Some(issueReply.failure))
  {
  }

  /** A refresh failure other than 401 raises with the state untouched and
      without trying to issue. */
  lemma OtherRefreshFailureRaises(cfg: Config, s: TokenState, clock: Clock, f: Failure, issueReply: IssueReply)
    requires !AccessFresh(s, clock.atCheck, cfg.refreshBuffer)
    requires RefreshUsable(s, clock.atCheck) && RefreshUsable(s, clock.atRefresh)
    requires f != HttpStatus(Unauthorized)
    ensures Ensure(cfg, s, clock, RefreshRejected(f), issueReply) == Outcome(s, [RefreshCall(s.refreshToken.value)], Some(f))
  {
  }

  /** Renewal is all or nothing: either it raises and the state is the one it
      started from, or it refreshed and exactly the access token and its expiry
      were replaced, or it issued and all four fields come from the issue
      reply. */
  lemma RenewalIsAtomic(cfg: Config, s: TokenState, clock: Clock, refreshReply: RefreshReply, issueReply: IssueReply)
    requires !AccessFresh(s, clock.atCheck, cfg.refreshBuffer)
    ensures var r := Ensure(cfg, s, clock, refreshReply, issueReply);
            || (r.raised.Some? && r.state == s)
            || (r.raised.None? && IssueRequest(cfg) !in r.calls && refreshReply.Refreshed?
                && r.state == s.(accessToken := Some(refreshReply.access),
                                 tokenExpires := clock.atRefresh + OrZero(refreshReply.accessExpires)))
            || (r.raised.None? && issueReply.Granted?
                && r.state == TokenState(Some(issueReply.access), Some(issueReply.refresh),
                                         clock.atIssue + OrZero(issueReply.accessExpires),
                                         clock.atIssue + OrZero(issueReply.refreshExpires)))
  {
  }

  /** Issuing with rejected credentials from an empty client leaves it empty. */
  lemma RejectedCredentialsLeaveClientEmpty(cfg: Config, clock: Clock, refreshReply: RefreshReply, f: Failure)
    ensures Ensure(cfg, Empty, clock, refreshReply, IssueRejected(f)) == Outcome(Empty, [IssueRequest(cfg)], Some(f))
  {
  }

  /** A successful issue does not depend on the state it replaces. */
  lemma IssueForgetsPriorState(cfg: Config, s1: TokenState, s2: TokenState, reply: IssueReply, at: int)
    requires reply.Granted?
    ensures Issue(cfg, s1, reply, at).state == Issue(cfg, s2, reply, at).state
  {
  }

  /** After `__call__` returns, the request carries "Bearer " followed by the
      access token the client holds, and that token is the one the renewal
      left in place. */
  lemma HeaderCarriesHeldToken(cfg: Config, s: TokenState, clock: Clock, refreshReply: RefreshReply, issueReply: IssueReply)
    requires AccessFresh(s, clock.atCheck, cfg.refreshBuffer)
    ensures Authorize(cfg, s, clock, refreshReply, issueReply) ==
              Authorized(Outcome(s, [], None), Some("Bearer " + s.accessToken.value))
  {
  }

  /** A successful renewal need not leave a fresh token: when the provider
      omits the durations, both expiries equal the issue reading, so the token
      is due for renewal again on the next request. */
  lemma RenewalMayLeaveTokenDue(cfg: Config, now: int, refreshReply: RefreshReply)
    requires cfg.refreshBuffer >= 0
    ensures var r := Ensure(cfg, Empty, Frozen(now), refreshReply, Granted("access", "refresh", None, None));
            && r.raised.None?
            && r.state == TokenState(Some("access"), Some("refresh"), now, now)
            && !AccessFresh(r.state, now, cfg.refreshBuffer)
  {
  }
}

=== FILE: status.dfy ===
/** `get_token_status`: a read-only view of the token state at time `now`. */
module Status {
  import opened Tokens
  import opened Renewal

  /** The dictionary `get_token_status` returns, field for field. */
  datatype TokenStatus = TokenStatus(
    hasAccessToken: bool,
    hasRefreshToken: bool,
    accessExpiresAt: int,
    refreshExpiresAt: int,
    accessExpiresInSeconds: int,
    refreshExpiresInSeconds: int,
    currentTime: int,
    isAccessValid: bool,
    isRefreshValid: bool)

  /** `max(0, expires - now)`: the seconds left before `expires`, clamped at
      zero once it has passed. */
  function Remaining(expires: int, now: int): (r: int)
    ensures r >= 0
    ensures r > 0 <==> now < expires
    ensures r > 0 ==> now + r == expires
  {
    if expires - now > 0 then expires - now else 0
  }

  /** `get_token_status`. Presence is `is not None`, not truthiness, and the
      validity flags compare with the expiry itself, without the renewal
      buffer. */
  function GetTokenStatus(s: TokenState, now: int): (st: TokenStatus)
    ensures st.accessExpiresInSeconds >= 0 && st.refreshExpiresInSeconds >= 0
    ensures st.hasAccessToken <==> s.accessToken.Some?
    ensures st.hasRefreshToken <==> s.refreshToken.Some?
    ensures st.accessExpiresInSeconds > 0 <==> now < s.tokenExpires
    ensures st.accessExpiresInSeconds > 0 ==> now + st.accessExpiresInSeconds == s.tokenExpires
    ensures st.refreshExpiresInSeconds > 0 <==> now < s.refreshExpires
    ensures st.refreshExpiresInSeconds > 0 ==> now + st.refreshExpiresInSeconds == s.refreshExpires
    ensures st.isAccessValid <==> st.hasAccessToken && st.accessExpiresInSeconds > 0
    ensures st.isRefreshValid <==> st.hasRefreshToken && st.refreshExpiresInSeconds > 0
    ensures st.isAccessValid ==> st.currentTime + st.accessExpiresInSeconds == st.accessExpiresAt
    ensures st.isRefreshValid ==> st.currentTime + st.refreshExpiresInSeconds == st.refreshExpiresAt
    ensures st.currentTime == now && st.accessExpiresAt == s.tokenExpires && st.refreshExpiresAt == s.refreshExpires
  {
    TokenStatus(
      hasAccessToken := s.accessToken.Some?,
      hasRefreshToken := s.refreshToken.Some?,
      accessExpiresAt := s.tokenExpires,
      refreshExpiresAt := s.refreshExpires,
      accessExpiresInSeconds := Remaining(s.tokenExpires, now),
      refreshExpiresInSeconds := Remaining(s.refreshExpires, now),
      currentTime := now,
      isAccessValid := s.accessToken.Some? && now < s.tokenExpires,
      isRefreshValid := s.refreshToken.Some? && now < s.refreshExpires)
  }

  // ---------------------------------------------------------------------
  // How the status view relates to the renewal decision

  /** An access token that needs no renewal is reported valid, with more than
      the buffer left. */
  lemma FreshTokenReportedValid(s: TokenState, now: int, buffer: int)
    requires AccessFresh(s, now, buffer) && buffer >= 0
    ensures GetTokenStatus(s, now).isAccessValid
    ensures GetTokenStatus(s, now).accessExpiresInSeconds > buffer
  {
  }

  /** The access flag is exactly `access_token is not None and now <
      token_expires`. */
  lemma AccessValidIffPresentAndUnexpired(s: TokenState, now: int)
    ensures GetTokenStatus(s, now).isAccessValid <==> s.accessToken.Some? && now < s.tokenExpires
  {
  }

  /** The refresh flag agrees with the refresh decision of `ensure_valid_token`
      for every refresh token but the empty string. */
  lemma RefreshFlagMatchesRenewalChoice(s: TokenState, now: int)
    requires s.refreshToken != Some("")
    ensures GetTokenStatus(s, now).isRefreshValid <==> RefreshUsable(s, now)
  {
  }

  /** A token inside the buffer is reported valid, yet the next request renews
      it: the view applies no buffer. */
  lemma ValidWithinBufferStillRenews()
    ensures var s := TokenState(Some("access"), Some("refresh"), 1030, 5000);
            && GetTokenStatus(s, 1000).isAccessValid
            && GetTokenStatus(s, 1000).accessExpiresInSeconds == 30
            && !AccessFresh(s, 1000, DefaultRefreshBuffer)
  {
  }

  /** An empty-string access token is reported present and valid, yet it is
      falsy, so the next request renews it. */
  lemma EmptyTokenReportedValid(cfg: Config, refreshReply: RefreshReply, issueReply: IssueReply)
    requires cfg.refreshBuffer == DefaultRefreshBuffer
    ensures var s := TokenState(Some(""), None, 5000, 0);
            && GetTokenStatus(s, 1000).hasAccessToken
            && GetTokenStatus(s, 1000).isAccessValid
            && Ensure(cfg, s, Frozen(1000), refreshReply, issueReply).calls == [IssueRequest(cfg)]
  {
  }
}

=== FILE: tokens.dfy ===
/** The token state of the GoCardless Bank Account Data client and the values
    shared by its renewal, persistence and status operations. */
module Tokens {

  /** Python's `None` or a value. */
  datatype Option<+T> = None | Some(value: T)

  /** The statuses on which `raise_for_status` raises: client and server
      errors. */
  type ErrorStatus = code: int | 400 <= code < 600 witness 400

  /** Why a request to the provider raised: an HTTP error status seen by
      `raise_for_status`, or a failure of the transport itself. */
  datatype Failure = HttpStatus(code: ErrorStatus) | Transport

  /** The status on which a refresh falls back to a full issue. */
  const Unauthorized: ErrorStatus := 401

  /** Seconds before expiry at which the client renews proactively
      (the constructor's `token_refresh_buffer` default). */
  const DefaultRefreshBuffer: int := 60

  /** The four mutable fields of the client; both expiries are absolute
      timestamps in seconds. */
  datatype TokenState = TokenState(
    accessToken: Option<string>,
    refreshToken: Option<string>,
    tokenExpires: int,
    refreshExpires: int)

  /** The state of a freshly constructed client, and the state a failed load
      resets to. */
  const Empty: TokenState := TokenState(None, None, 0, 0)

  /** The client's configuration: the application secret pair sent to the
      issue endpoint, and the renewal buffer. */
  datatype Config = Config(secretId: Option<string>, secretKey: Option<string>, refreshBuffer: int)

  /** Python truthiness of a token: neither `None` nor the empty string. */
  predicate Truthy(token: Option<string>) {
    token.Some? && token.value != ""
  }

  /** The access token may be used without renewal at time `now`. */
  predicate AccessFresh(s: TokenState, now: int, buffer: int) {
    Truthy(s.accessToken) && now < s.tokenExpires - buffer
  }

  /** The refresh token may be spent at time `now`. */
  predicate RefreshUsable(s: TokenState, now: int) {
    Truthy(s.refreshToken) && now < s.refreshExpires
  }

  /** A request sent to one of the two token endpoints, with its body. */
  datatype Call =
    | IssueCall(secretId: Option<string>, secretKey: Option<string>)
    | RefreshCall(refresh: string)

  /** The successive wall-clock readings taken by one renewal: when the
      access token is checked, just before a refresh request, and just after
      an issue response. Nothing forces them to be ordered: the source reads
      the wall clock, which may be set back. */
  datatype Clock = Clock(atCheck: int, atRefresh: int, atIssue: int)

  /** One reading for the whole renewal. */
  function Frozen(now: int): Clock {
    Clock(now, now, now)
  }
}
